=== FILE: README.md ===
# RDPSND inbound PDUs

A Dafny model of the inbound side of the RDPSND (audio output) virtual
channel, as Guacamole's RDP plugin declares it in
`src/protocols/rdp/guac_rdpsnd/rdpsnd_messages.h`. The server sends PDUs
that start with a common header (message type, body size). The client
handles each PDU according to its message type:

- Server Audio Formats and Version: the formats are read and the version is
  noted. A Quality Mode PDU is answered from version 6 on.
- Training: answered with a Training PDU.
- WaveInfo: carries the first four bytes of a wave. The channel then
  expects the Wave PDU.
- Wave: has no type code of its own. It is the message right after a
  WaveInfo. Its first four bytes are padding where the WaveInfo's four
  bytes belong.
- Close: ignored.

The model is a pure state machine. The state is `Idle` or `Pending(info)`.
Each step maps the state and one message to a new state and a list of
events:

- a PDU sent back;
- a chunk of audio to play;
- the formats the server advertised;
- a dropped PDU, with the reason.

Modules:

- `Bytes`: little-endian field codecs and the `Result`/`Option` wrappers.
- `Messages`: message-type codes, quality modes, the common header, dispatch
  by message type, and the PDUs the client sends back.
- `Formats`: the Server Audio Formats and Version PDU body.
- `Framing`: cutting a byte stream into PDUs by the header's body size.
- `Rdpsnd`: the handlers, the single step, and runs over message sequences.
- `RdpsndProperties`: lemmas about steps and runs.

The header file only gives constants and doc comments, so field layouts
follow MS-RDPEA:

- the common header (section 2.2.1): type, pad byte, 16-bit body size;
- the Server Audio Formats and Version PDU (section 2.2.2.1) and
  AUDIO_FORMAT (section 2.2.2.1.1);
- the Quality Mode PDU (section 2.2.2.3);
- the Training PDU (section 2.2.3.1);
- the WaveInfo PDU (section 2.2.3.3): timestamp, format number, block
  number, three pad bytes, four data bytes;
- the Wave PDU (section 2.2.3.4);
- the Wave Confirm PDU (section 2.2.3.8).

A Wave PDU is recognised by the state, not by its bytes. So a second
WaveInfo that arrives while one is pending is not an out-of-order PDU: it
is taken as the Wave PDU, with its first four bytes as the padding.

## Model

| member | source | states |
|---|---|---|
| Messages.MessageTypesDistinct | src/protocols/rdp/guac_rdpsnd/rdpsnd_messages.h:34-66 | the six message-type codes 1, 2, 5, 6, 7, 12 are pairwise distinct |
| Messages.HandlerFor | src/protocols/rdp/guac_rdpsnd/rdpsnd_messages.h:34-60 | a code selects handler h exactly when h is registered for that code; no code selects the Wave handler |
| Messages.DispatchIsInjective | src/protocols/rdp/guac_rdpsnd/rdpsnd_messages.h:37-66 | two codes that select the same handler are equal; the client-only codes 5 and 12 select no handler |
| Messages.EncodeHeader | src/protocols/rdp/guac_rdpsnd/rdpsnd_messages.h:98-113 | the header is four bytes: the type, a zero pad byte, and a 16-bit body size that reads back as the header's size |
| Messages.ParseHeader | src/protocols/rdp/guac_rdpsnd/rdpsnd_messages.h:98-113 | reading fails, as Truncated, exactly when fewer than four bytes are present; re-encoding a read header gives the input's type and size bytes |
| Messages.ParseEncodeHeader | src/protocols/rdp/guac_rdpsnd/rdpsnd_messages.h:98-113 | any header is read back from its encoding, whatever bytes follow it |
| Messages.QualityFromCode | src/protocols/rdp/guac_rdpsnd/rdpsnd_messages.h:68-86 | decoding inverts the quality codes 0, 1, 2 and fails exactly for codes above 2 |
| Messages.EncodeOut | src/protocols/rdp/guac_rdpsnd/rdpsnd_messages.h:44-66 | a PDU sent back is eight bytes; its header carries its own type and body size 4, followed by its body |
| Messages.DecodeEncodeOut | src/protocols/rdp/guac_rdpsnd/rdpsnd_messages.h:44-66 | the server reads back exactly the Training, Quality Mode or Wave Confirm PDU the client encoded |
| Formats.ParseFormat | src/protocols/rdp/guac_rdpsnd/rdpsnd_messages.h:115-132 | an entry is read exactly when its fixed part and its declared tail are present; every field is read from its offset, the tail is as long as the entry's cbSize field, and the bytes after the tail are left over |
| Formats.ParseEncodeFormat | src/protocols/rdp/guac_rdpsnd/rdpsnd_messages.h:115-132 | any audio format entry is read back from its encoding, whatever follows it |
| Formats.ParseFormats | src/protocols/rdp/guac_rdpsnd/rdpsnd_messages.h:115-132 | a successful read returns as many entries as announced, and never more bytes than it was given |
| Formats.ParseEncodeFormats | src/protocols/rdp/guac_rdpsnd/rdpsnd_messages.h:115-132 | a list of entries encoded back to back is read back in order, and the bytes after it are left over |
| Formats.EncodeParsedFormat | src/protocols/rdp/guac_rdpsnd/rdpsnd_messages.h:115-132 | an entry that is read re-encodes to exactly the bytes it was read from, followed by the rest |
| Formats.ParseFormatsEncodes | src/protocols/rdp/guac_rdpsnd/rdpsnd_messages.h:115-132 | a list that is read re-encodes to exactly the bytes it was read from, followed by the rest |
| Formats.ParseFormatsOkIff | src/protocols/rdp/guac_rdpsnd/rdpsnd_messages.h:115-132 | reading `count` entries succeeds exactly when the bytes are `count` encoded entries followed by anything, so it fails exactly when an entry is incomplete |
| Formats.ParseServerFormats | src/protocols/rdp/guac_rdpsnd/rdpsnd_messages.h:115-132 | a body shorter than its fixed fields is Truncated; a body that is read has as many formats as its count field at offset 14 announces, and its version is the 16-bit field at offset 17 |
| Formats.ParseServerFormatsEncodes | src/protocols/rdp/guac_rdpsnd/rdpsnd_messages.h:115-132 | a body that is read re-encodes to its first 19 bytes (its pad byte is ignored) followed by the encoded entries found at offset 20 |
| Formats.ParseServerFormatsOkIff | src/protocols/rdp/guac_rdpsnd/rdpsnd_messages.h:115-132 | a body of at least 20 bytes is read exactly when it holds, from offset 20, as many encoded entries as its count field announces |
| Formats.ParseEncodeServerFormats | src/protocols/rdp/guac_rdpsnd/rdpsnd_messages.h:115-132 | the formats and version the server encodes are read back unchanged |
| Framing.ReadPdu | src/protocols/rdp/guac_rdpsnd/rdpsnd_messages.h:108-111 | a PDU that is read has a body exactly as long as its header's body size, and the read strictly shortens the buffer |
| Framing.ReadPduConsumes | src/protocols/rdp/guac_rdpsnd/rdpsnd_messages.h:108-111 | a PDU is read exactly when the header and body-size bytes are present; its header is the buffer's type byte and size field, its body is exactly the next body-size bytes, and the bytes after them are left for the next PDU |
| Framing.ReadPduExtend | src/protocols/rdp/guac_rdpsnd/rdpsnd_messages.h:108-111 | bytes that arrive after a complete PDU do not change it; they are added to what is left over |
| Framing.ReadEncodedPdu | src/protocols/rdp/guac_rdpsnd/rdpsnd_messages.h:98-113 | reading an encoded well-framed PDU gives it back and leaves what followed |
| Framing.Split | src/protocols/rdp/guac_rdpsnd/rdpsnd_messages.h:108-111 | the remainder holds no complete PDU and is no longer than the input |
| Framing.SplitWellFramed | src/protocols/rdp/guac_rdpsnd/rdpsnd_messages.h:108-111 | every PDU cut from a buffer has a body as long as its header says |
| Framing.SplitCoversBuffer | src/protocols/rdp/guac_rdpsnd/rdpsnd_messages.h:108-111 | the buffer is the PDUs cut off, each as its header (whatever its pad byte) and its body at its offset, followed by the remainder; their lengths add up to the buffer's |
| Framing.SplitUnique | src/protocols/rdp/guac_rdpsnd/rdpsnd_messages.h:108-111 | any cutting of a buffer into PDUs, each framed by its body size, that leaves no complete PDU in the remainder is exactly the one `Split` returns |
| Framing.SplitEncoded | src/protocols/rdp/guac_rdpsnd/rdpsnd_messages.h:108-111 | PDUs encoded back to back are cut apart in order, each taking exactly its body size; later bytes are cut on their own |
| Framing.SplitResume | src/protocols/rdp/guac_rdpsnd/rdpsnd_messages.h:108-111 | a buffer delivered in two pieces is cut into the same PDUs as the whole buffer |
| Rdpsnd.ParseWaveInfo | src/protocols/rdp/guac_rdpsnd/rdpsnd_messages.h:155-162 | a WaveInfo body is read exactly when it has its twelve bytes; its audio is the four bytes at offset 8 |
| Rdpsnd.ParseEncodeWaveInfo | src/protocols/rdp/guac_rdpsnd/rdpsnd_messages.h:155-162 | any WaveInfo is read back from its encoding, whatever follows it |
| Rdpsnd.OnFormats | src/protocols/rdp/guac_rdpsnd/rdpsnd_messages.h:56-66 | an unreadable body is a fault; otherwise the formats are advertised, and a Quality Mode PDU follows exactly when the version is at least 6 |
| Rdpsnd.OnTraining | src/protocols/rdp/guac_rdpsnd/rdpsnd_messages.h:50-54 | a Training PDU is answered by one Training PDU whose body echoes the probe's first four bytes; a short body is a fault; the state stays idle |
| Rdpsnd.OnWaveInfo | src/protocols/rdp/guac_rdpsnd/rdpsnd_messages.h:155-176 | the channel becomes pending exactly when the WaveInfo is complete, and then remembers its four audio bytes; a short body is a fault |
| Rdpsnd.OnWave | src/protocols/rdp/guac_rdpsnd/rdpsnd_messages.h:178-195 | the chunk played is as long as the Wave PDU: the WaveInfo's four bytes, then the Wave PDU after its padding; a Wave Confirm for that WaveInfo follows |
| Rdpsnd.OnClose | src/protocols/rdp/guac_rdpsnd/rdpsnd_messages.h:197-215 | Close produces nothing and leaves the channel idle |
| Rdpsnd.Route | src/protocols/rdp/guac_rdpsnd/rdpsnd_messages.h:155-181 | while a WaveInfo is pending every message goes to the Wave handler; otherwise the header's type chooses the handler |
| Rdpsnd.Step | src/protocols/rdp/guac_rdpsnd/rdpsnd_messages.h:115-215 | a pending step always returns to idle; the channel becomes pending only through the WaveInfo handler; audio and Wave Confirms come only from the Wave handler |
| RdpsndProperties.IdleStepBody | src/protocols/rdp/guac_rdpsnd/rdpsnd_messages.h:101-106 | in the idle state a message shorter than the header is dropped as truncated; any other message goes to the handler its type byte selects, and that handler gets the bytes after the header as its body, whatever the pad byte and the body-size field hold |
| RdpsndProperties.TrainingAnswered | src/protocols/rdp/guac_rdpsnd/rdpsnd_messages.h:50-54 | any Training PDU, whatever its pad byte and body-size field, gets exactly one reply, a Training PDU that echoes the timestamp and pack size at offsets 4 and 6; one too short to hold both is dropped as truncated; the state stays idle |
| RdpsndProperties.OnFormatsSelects | src/protocols/rdp/guac_rdpsnd/rdpsnd_messages.h:62-66 | a readable formats body gives one Quality Mode PDU when the version is at least 6 and none otherwise; its mode is the configured one |
| RdpsndProperties.QualityModeIffVersion | src/protocols/rdp/guac_rdpsnd/rdpsnd_messages.h:62-86 | for any formats PDU whose body reads, whatever its pad bytes and trailing bytes, a Quality Mode PDU is sent exactly when the version is at least 6; it is sent once, carries the configured mode, and its bytes decode back to that mode |
| RdpsndProperties.CloseIgnored | src/protocols/rdp/guac_rdpsnd/rdpsnd_messages.h:197-199 | any Close PDU leaves the idle state unchanged and produces no event |
| RdpsndProperties.UnknownTypeDropped | src/protocols/rdp/guac_rdpsnd/rdpsnd_messages.h:34-66 | any message at least a header long whose type has no handler is reported as unknown and dropped |
| RdpsndProperties.WaveReassembly | src/protocols/rdp/guac_rdpsnd/rdpsnd_messages.h:155-181 | for any WaveInfo message of at least 16 bytes and any next message of at least 4, the chunk played has the announced format and timestamp and holds the WaveInfo's four audio bytes followed by the next message after its padding; it is as long as that message; one Wave Confirm for the WaveInfo's timestamp and block follows; the channel is idle again |
| RdpsndProperties.PendingLastsOneMessage | src/protocols/rdp/guac_rdpsnd/rdpsnd_messages.h:155-157 | the message after a WaveInfo always ends the wait; it plays one chunk when it holds at least the padding, and none otherwise |
| RdpsndProperties.RunAppend | src/protocols/rdp/guac_rdpsnd/rdpsnd_messages.h:155-157 | messages are handled one after another in arrival order: processing two sequences in turn, the second starting from the state the first left, is processing their concatenation |
| RdpsndProperties.StepConfirmsEveryPlay | src/protocols/rdp/guac_rdpsnd/rdpsnd_messages.h:44-48 | each step sends as many Wave Confirms as it plays chunks |
| RdpsndProperties.ConfirmsMatchPlays | src/protocols/rdp/guac_rdpsnd/rdpsnd_messages.h:44-48 | over any sequence of messages, the number of Wave Confirms sent equals the number of chunks played |
| RdpsndProperties.NoPlayWhenIdle | src/protocols/rdp/guac_rdpsnd/rdpsnd_messages.h:178-181 | a message that arrives while no WaveInfo is pending plays no audio |
| RdpsndProperties.NoWaveInfoNoAudio | src/protocols/rdp/guac_rdpsnd/rdpsnd_messages.h:155-160 | with no WaveInfo PDU, the channel stays idle and plays no audio |

## Left out

- The wStream reader, the plugin object, its lifecycle and channel
  registration. These are the host's plumbing. Handlers here take plain
  byte sequences.
- Sending PDUs back on the channel and handing audio to the Guacamole audio
  stream. These are modelled only as the `Send` and `Play` events a step
  emits.
- The client's Audio Formats reply and the choice of formats. The handler
  bodies are not part of this model, so no selection policy is assumed.
  `WAVE_FORMAT_PCM` is defined as a constant only.
- The quality mode the client asks for. It is a parameter of `Step` and
  `Run`: the header does not say which mode is chosen, only when one must
  be sent.
- `TSSNDCAPS_ALIVE`: it is declared with no behaviour attached.
- Timing, latency and threading of training and playback.
- Reassembly of channel chunks into whole messages. Each element of a run is
  one complete channel message.
- Framing.Split: it cuts only streams whose every PDU is a header followed
  by exactly body-size bytes. A WaveInfo and Wave pair does not fit: per
  section 2.2.3.3 of MS-RDPEA, the WaveInfo's body size also counts the
  Wave PDU's data, and the Wave PDU has no header. So `Split` does not apply
  to a stream that holds such a pair, and it is not connected to `Step` or
  `Run`, which take whole channel messages.
- Rdpsnd.Route: a WaveInfo that arrives while another is pending is not
  reported as out of order, and it does not replace the pending one. The
  header describes the Wave PDU as the one that follows any WaveInfo PDU, so
  the message after a WaveInfo is always taken as its Wave PDU, whatever its
  type byte.
- Rdpsnd.Step: it does not compare the header's body size with the message
  length. Per section 2.2.3.3 of MS-RDPEA, a WaveInfo PDU's body size also
  counts the data of the Wave PDU that follows. A strict check would
  therefore reject every WaveInfo.
- Rdpsnd.OnWave: a Wave PDU shorter than its four padding bytes is reported
  as Truncated and plays nothing. The header does not say what the plugin
  does in that case.

=== FILE: bytes.dfy ===
/**
  Little-endian byte codecs shared by every RDPSND PDU.

  All multi-byte fields of the audio output channel are unsigned and
  little-endian (MS-RDPEA section 2.2). Integers here are unbounded, so the
  field widths are stated as subset types and every encoder splits its value
  explicitly into bytes.
 */
module Bytes {

  type byte = x: int | 0 <= x < 0x100
  type u16 = x: int | 0 <= x < 0x1_0000
  type u32 = x: int | 0 <= x < 0x1_0000_0000

  /** Why a PDU could not be read. */
  datatype ErrorKind =
    | Truncated      // fewer bytes than the field or PDU needs
    | UnknownType    // a message type no inbound handler is registered for

  datatype Result<+T> = Ok(value: T) | Err(error: ErrorKind)

  datatype Option<+T> = None | Some(value: T)

  /** Reads the 16-bit little-endian field at the front of `s`. */
  function PeekU16(s: seq<byte>): u16
    requires |s| >= 2
  {
    s[0] as int + 0x100 * (s[1] as int)
  }

  /** Reads the 32-bit little-endian field at the front of `s`. */
  function PeekU32(s: seq<byte>): u32
    requires |s| >= 4
  {
    PeekU16(s) as int + 0x1_0000 * (PeekU16(s[2..]) as int)
  }

  function EncodeU16(x: u16): (r: seq<byte>)
    ensures |r| == 2
    ensures PeekU16(r) == x
  {
    [x % 0x100, x / 0x100]
  }

  function EncodeU32(x: u32): (r: seq<byte>)
    ensures |r| == 4
    ensures PeekU32(r) == x
  {
    var r := EncodeU16(x % 0x1_0000) + EncodeU16(x / 0x1_0000);
    assert r[2..] == EncodeU16(x / 0x1_0000);
    r
  }

  /** Encoding the field just read gives back the bytes it was read from. */
  lemma EncodePeekU16(s: seq<byte>)
    requires |s| >= 2
    ensures EncodeU16(PeekU16(s)) == s[..2]
  {
  }

  lemma EncodePeekU32(s: seq<byte>)
    requires |s| >= 4
    ensures EncodeU32(PeekU32(s)) == s[..4]
  {
    var lo, hi := PeekU16(s), PeekU16(s[2..]);
    HalvesU32(lo, hi);
    EncodePeekU16(s);
    EncodePeekU16(s[2..]);
    assert s[..4] == s[..2] + s[2..][..2];
  }

  /** The two 16-bit halves of a 32-bit value are recovered by division. */
  lemma HalvesU32(lo: u16, hi: u16)
    ensures (lo + 0x1_0000 * hi) % 0x1_0000 == lo
    ensures (lo + 0x1_0000 * hi) / 0x1_0000 == hi
  {
  }

  /** A field read from an encoding followed by more bytes ignores those bytes. */
  lemma PeekU16Prefix(x: u16, rest: seq<byte>)
    ensures PeekU16(EncodeU16(x) + rest) == x
  {
  }

  /** A 16-bit field read from the middle of a buffer. */
  lemma PeekU16At(s: seq<byte>, i: nat, x: u16)
    requires i + 2 <= |s| && s[i..i + 2] == EncodeU16(x)
    ensures PeekU16(s[i..]) == x
  {
    assert s[i..][0] == s[i..i + 2][0] && s[i..][1] == s[i..i + 2][1];
  }

  lemma PeekU32At(s: seq<byte>, i: nat, x: u32)
    requires i + 4 <= |s| && s[i..i + 4] == EncodeU32(x)
    ensures PeekU32(s[i..]) == x
  {
    var e := EncodeU32(x);
    assert s[i..][..4] == e;
    assert s[i..][2..][..2] == e[2..][..2];
  }

  /** Concatenation regroups freely; stated once so that proofs about
      particular encodings need not unfold them to see it. */
  lemma AppendAssoc<T>(a: seq<T>, b: seq<T>, c: seq<T>)
    ensures (a + b) + c == a + (b + c)
  {
  }

  /** A slice inside a prefix of `s` is the same slice of that prefix. */
  lemma SliceOfPrefix<T>(s: seq<T>, e: seq<T>, i: nat, j: nat)
    requires |e| <= |s| && s[..|e|] == e && i <= j <= |e|
    ensures s[i..j] == e[i..j]
  {
    assert forall k :: i <= k < j ==> s[k] == s[..|e|][k];
  }
}

=== FILE: formats.dfy ===
/**
  The Server Audio Formats and Version PDU (SNDC_FORMATS): the audio formats
  the server offers and the version of the protocol it implements
  (MS-RDPEA section 2.2.2.1). Only the reading of the PDU is modelled; which
  format the client then picks is not.
 */
module Formats {
  import opened Bytes
  import opened Messages

  /** One AUDIO_FORMAT entry (MS-RDPEA section 2.2.2.1.1). `extra` is the
      codec-specific tail, whose length is carried in the entry. */
  datatype AudioFormat = AudioFormat(
    tag: u16,
    channels: u16,
    samplesPerSec: u32,
    avgBytesPerSec: u32,
    blockAlign: u16,
    bitsPerSample: u16,
    extra: Extra)

  /** Size of an entry before its codec-specific tail. */
  const FormatPrefixSize := 18

  /** A codec-specific tail, short enough for its 16-bit length field. */
  type Extra = s: seq<byte> | |s| < 0x1_0000

  function EncodeFormat(f: AudioFormat): (r: seq<byte>)
    ensures |r| == FormatPrefixSize + |f.extra|
  {
    EncodeU16(f.tag) + EncodeU16(f.channels) + EncodeU32(f.samplesPerSec)
      + EncodeU32(f.avgBytesPerSec) + EncodeU16(f.blockAlign)
      + EncodeU16(f.bitsPerSample) + EncodeU16(|f.extra|) + f.extra
  }

  /** Reads one entry from the front of `s`, returning it and the bytes
      after it. The tail is skipped by its declared length exactly. */
  function ParseFormat(s: seq<byte>): (r: Result<(AudioFormat, seq<byte>)>)
    ensures r.Ok? ==> |r.value.1| < |s|
    ensures r.Ok? ==>
              && |s| >= FormatPrefixSize
              && var f := r.value.0;
              && f.tag == PeekU16(s) && f.channels == PeekU16(s[2..])
              && f.samplesPerSec == PeekU32(s[4..]) && f.avgBytesPerSec == PeekU32(s[8..])
              && f.blockAlign == PeekU16(s[12..]) && f.bitsPerSample == PeekU16(s[14..])
              && |f.extra| == PeekU16(s[16..])
              && s == s[..FormatPrefixSize] + f.extra + r.value.1
    ensures r.Err? <==>
              |s| < FormatPrefixSize || |s| < FormatPrefixSize + PeekU16(s[16..])
  {
    if |s| < FormatPrefixSize then Err(Truncated)
    else
      var size := PeekU16(s[16..]);
      if |s| < FormatPrefixSize + size then Err(Truncated)
      else
        var f := AudioFormat(PeekU16(s), PeekU16(s[2..]), PeekU32(s[4..]),
                             PeekU32(s[8..]), PeekU16(s[12..]), PeekU16(s[14..]),
                             s[FormatPrefixSize..FormatPrefixSize + size]);
        assert s == s[..FormatPrefixSize] + f.extra + s[FormatPrefixSize + size..];
        Ok((f, s[FormatPrefixSize + size..]))
  }

  /** Where each field sits in an encoded entry. */
  lemma EncodeFormatFields(f: AudioFormat)
    ensures var e := EncodeFormat(f);
            && e[0..2] == EncodeU16(f.tag) && e[2..4] == EncodeU16(f.channels)
            && e[4..8] == EncodeU32(f.samplesPerSec) && e[8..12] == EncodeU32(f.avgBytesPerSec)
            && e[12..14] == EncodeU16(f.blockAlign) && e[14..16] == EncodeU16(f.bitsPerSample)
            && e[16..18] == EncodeU16(|f.extra|) && e[18..] == f.extra
  {
    var a := EncodeU16(f.tag) + EncodeU16(f.channels);
    var b := EncodeU32(f.samplesPerSec) + EncodeU32(f.avgBytesPerSec);
    var c := EncodeU16(f.blockAlign) + EncodeU16(f.bitsPerSample) + EncodeU16(|f.extra|);
    var e := EncodeFormat(f);
    assert e == a + b + c + f.extra;
    assert e[0..4] == a && e[4..12] == b && e[12..18] == c;
    assert a[0..2] == EncodeU16(f.tag) && a[2..4] == EncodeU16(f.channels);
    assert b[0..4] == EncodeU32(f.samplesPerSec) && b[4..8] == EncodeU32(f.avgBytesPerSec);
    assert c[0..2] == EncodeU16(f.blockAlign) && c[2..4] == EncodeU16(f.bitsPerSample);
    assert c[4..6] == EncodeU16(|f.extra|);
  }

  lemma ParseEncodeFormat(f: AudioFormat, rest: seq<byte>)
    ensures ParseFormat(EncodeFormat(f) + rest) == Ok((f, rest))
  {
    var e := EncodeFormat(f);
    var s := e + rest;
    var n := |f.extra|;
    EncodeFormatFields(f);
    assert s[..|e|] == e;
    PeekU16At(s, 0, f.tag);
    PeekU16At(s, 2, f.channels);
    PeekU32At(s, 4, f.samplesPerSec);
    PeekU32At(s, 8, f.avgBytesPerSec);
    PeekU16At(s, 12, f.blockAlign);
    PeekU16At(s, 14, f.bitsPerSample);
    PeekU16At(s, 16, n);
    assert s[FormatPrefixSize..FormatPrefixSize + n] == f.extra;
    assert s[FormatPrefixSize + n..] == rest;
  }

  /* ---------------------------------------------------------------------- */
  /* The list of formats                                                     */
  /* ---------------------------------------------------------------------- */

  function EncodeFormats(fs: seq<AudioFormat>): (r: seq<byte>)
  {
    if fs == [] then [] else EncodeFormat(fs[0]) + EncodeFormats(fs[1..])
  }

  /** Reads `count` consecutive entries; fails if any of them is incomplete
      (see `ParseFormatsOkIff`). */
  function ParseFormats(s: seq<byte>, count: nat): (r: Result<(seq<AudioFormat>, seq<byte>)>)
    ensures r.Ok? ==> |r.value.0| == count && |r.value.1| <= |s|
    decreases count
  {
    if count == 0 then Ok(([], s))
    else
      var first := ParseFormat(s);
      if first.Err? then Err(first.error)
      else
        var later := ParseFormats(first.value.1, count - 1);
        if later.Err? then Err(later.error)
        else Ok(([first.value.0] + later.value.0, later.value.1))
  }

  /** Reading back an encoded list gives the list and leaves what followed. */
  lemma {:induction false} ParseEncodeFormats(fs: seq<AudioFormat>, rest: seq<byte>)
    ensures ParseFormats(EncodeFormats(fs) + rest, |fs|) == Ok((fs, rest))
  {
    if fs != [] {
      var tail := EncodeFormats(fs[1..]) + rest;
      EncodeFormatsCons(fs, rest);
      ParseEncodeFormat(fs[0], tail);
      ParseEncodeFormats(fs[1..], rest);
      ParseFormatsCons(EncodeFormats(fs) + rest, |fs|);
      assert [fs[0]] + fs[1..] == fs;
    } else {
      assert EncodeFormats(fs) + rest == rest;
    }
  }

  lemma EncodeFormatsCons(fs: seq<AudioFormat>, rest: seq<byte>)
    requires fs != []
    ensures EncodeFormats(fs) + rest == EncodeFormat(fs[0]) + (EncodeFormats(fs[1..]) + rest)
  {
    var head, tail := EncodeFormat(fs[0]), EncodeFormats(fs[1..]);
    assert EncodeFormats(fs) == head + tail;
    AppendAssoc(head, tail, rest);
  }

  /** An entry that is read re-encodes to exactly the bytes it was read
      from: nothing of the entry is skipped or invented. */
  lemma EncodeParsedFormat(s: seq<byte>)
    requires ParseFormat(s).Ok?
    ensures s == EncodeFormat(ParseFormat(s).value.0) + ParseFormat(s).value.1
  {
    var (f, rest) := ParseFormat(s).value;
    var p := s[..FormatPrefixSize];
    EncodePeekU16(s);
    EncodePeekU16(s[2..]);
    EncodePeekU32(s[4..]);
    EncodePeekU32(s[8..]);
    EncodePeekU16(s[12..]);
    EncodePeekU16(s[14..]);
    EncodePeekU16(s[16..]);
    var a := EncodeU16(f.tag) + EncodeU16(f.channels);
    var b := EncodeU32(f.samplesPerSec) + EncodeU32(f.avgBytesPerSec);
    var c := EncodeU16(f.blockAlign) + EncodeU16(f.bitsPerSample) + EncodeU16(|f.extra|);
    assert a == p[0..4];
    assert b == p[4..12];
    assert c == p[12..18];
    assert p == a + b + c;
    assert EncodeFormat(f) == p + f.extra;
  }

  /** A list that is read re-encodes to exactly the bytes it was read from. */
  lemma {:induction false} ParseFormatsEncodes(s: seq<byte>, count: nat)
    requires ParseFormats(s, count).Ok?
    ensures s == EncodeFormats(ParseFormats(s, count).value.0) + ParseFormats(s, count).value.1
    decreases count
  {
    if count == 0 {
      assert EncodeFormats([]) + s == s;
    } else {
      var (f, s') := ParseFormat(s).value;
      var (fs, rest) := ParseFormats(s', count - 1).value;
      ParseFormatsCons(s, count);
      ParseFormatsEncodes(s', count - 1);
      EncodeParsedFormat(s);
      var all := [f] + fs;
      assert all[0] == f && all[1..] == fs;
      EncodeFormatsCons(all, rest);
    }
  }

  /** Reading `count` entries succeeds exactly when the bytes are `count`
      encoded entries followed by anything: a list fails to read exactly
      when one of its entries is incomplete. */
  lemma ParseFormatsOkIff(s: seq<byte>, count: nat)
    ensures ParseFormats(s, count).Ok? <==>
              exists fs: seq<AudioFormat>, rest: seq<byte> ::
                |fs| == count && s == EncodeFormats(fs) + rest
  {
    if ParseFormats(s, count).Ok? {
      ParseFormatsEncodes(s, count);
    }
    if exists fs: seq<AudioFormat>, rest: seq<byte> :: |fs| == count && s == EncodeFormats(fs) + rest {
      var fs: seq<AudioFormat>, rest: seq<byte> :| |fs| == count && s == EncodeFormats(fs) + rest;
      ParseEncodeFormats(fs, rest);
    }
  }

  /** One entry is read, then the remaining `count - 1`. */
  lemma ParseFormatsCons(s: seq<byte>, count: nat)
    requires count > 0 && ParseFormat(s).Ok?
    requires ParseFormats(ParseFormat(s).value.1, count - 1).Ok?
    ensures var (f, s') := ParseFormat(s).value;
            var (fs, rest) := ParseFormats(s', count - 1).value;
            ParseFormats(s, count) == Ok(([f] + fs, rest))
  {
  }

  /* ---------------------------------------------------------------------- */
  /* The whole PDU body                                                      */
  /* ---------------------------------------------------------------------- */

  /** The body of a Server Audio Formats and Version PDU. */
  datatype ServerFormats = ServerFormats(
    flags: u32,
    volume: u32,
    pitch: u32,
    dgramPort: u16,
    lastBlockConfirmed: byte,
    version: u16,
    formats: seq<AudioFormat>)

  /** Size of the body before the list of formats. */
  const ServerFormatsPrefixSize := 20

  predicate ValidServerFormats(sf: ServerFormats)
  {
    |sf.formats| < 0x1_0000
  }

  /** The fixed fields that open the body, in wire order. */
  function EncodeServerFormatsPrefix(sf: ServerFormats): (r: seq<byte>)
    requires ValidServerFormats(sf)
    ensures |r| == ServerFormatsPrefixSize
  {
    EncodeU32(sf.flags) + EncodeU32(sf.volume) + EncodeU32(sf.pitch)
      + EncodeU16(sf.dgramPort) + EncodeU16(|sf.formats|)
      + [sf.lastBlockConfirmed] + EncodeU16(sf.version) + [0]
  }

  function EncodeServerFormats(sf: ServerFormats): seq<byte>
    requires ValidServerFormats(sf)
  {
    EncodeServerFormatsPrefix(sf) + EncodeFormats(sf.formats)
  }

  /** Reads the body of an SNDC_FORMATS PDU: the fixed fields, then as many
      entries as the body's format count announces. */
  function ParseServerFormats(body: seq<byte>): (r: Result<ServerFormats>)
    ensures |body| < ServerFormatsPrefixSize ==> r == Err(Truncated)
    ensures r.Ok? ==> ValidServerFormats(r.value)
    ensures r.Ok? ==> r.value.version == PeekU16(body[17..])
    ensures r.Ok? ==> |r.value.formats| == PeekU16(body[14..])
  {
    if |body| < ServerFormatsPrefixSize then Err(Truncated)
    else
      match ParseFormats(body[ServerFormatsPrefixSize..], PeekU16(body[14..]))
      case Err(e) => Err(e)
      case Ok((fs, _)) =>
        Ok(ServerFormats(PeekU32(body), PeekU32(body[4..]), PeekU32(body[8..]),
                         PeekU16(body[12..]), body[16], PeekU16(body[17..]), fs))
  }

  /** Where each fixed field sits in the encoded prefix. */
  lemma ServerFormatsPrefixFields(sf: ServerFormats)
    requires ValidServerFormats(sf)
    ensures var e := EncodeServerFormatsPrefix(sf);
            && e[0..4] == EncodeU32(sf.flags) && e[4..8] == EncodeU32(sf.volume)
            && e[8..12] == EncodeU32(sf.pitch) && e[12..14] == EncodeU16(sf.dgramPort)
            && e[14..16] == EncodeU16(|sf.formats|) && e[16] == sf.lastBlockConfirmed
            && e[17..19] == EncodeU16(sf.version)
  {
    var a := EncodeU32(sf.flags) + EncodeU32(sf.volume) + EncodeU32(sf.pitch);
    var b := EncodeU16(sf.dgramPort) + EncodeU16(|sf.formats|);
    var c := [sf.lastBlockConfirmed] + EncodeU16(sf.version) + [0];
    var e := EncodeServerFormatsPrefix(sf);
    assert e == a + b + c;
    assert e[0..12] == a && e[12..16] == b && e[16..20] == c;
    assert a[0..4] == EncodeU32(sf.flags) && a[4..8] == EncodeU32(sf.volume);
    assert a[8..12] == EncodeU32(sf.pitch);
    assert b[0..2] == EncodeU16(sf.dgramPort) && b[2..4] == EncodeU16(|sf.formats|);
    assert c[1..3] == EncodeU16(sf.version);
  }

  /** The fixed fields are read back from a buffer that opens with them. */
  lemma ReadServerFormatsPrefix(sf: ServerFormats, s: seq<byte>)
    requires ValidServerFormats(sf)
    requires |s| >= ServerFormatsPrefixSize && s[..ServerFormatsPrefixSize] == EncodeServerFormatsPrefix(sf)
    ensures PeekU32(s) == sf.flags && PeekU32(s[4..]) == sf.volume && PeekU32(s[8..]) == sf.pitch
    ensures PeekU16(s[12..]) == sf.dgramPort && PeekU16(s[14..]) == |sf.formats|
    ensures s[16] == sf.lastBlockConfirmed && PeekU16(s[17..]) == sf.version
  {
    var e := EncodeServerFormatsPrefix(sf);
    ServerFormatsPrefixFields(sf);
    SliceOfPrefix(s, e, 0, 4);
    SliceOfPrefix(s, e, 4, 8);
    SliceOfPrefix(s, e, 8, 12);
    SliceOfPrefix(s, e, 12, 14);
    SliceOfPrefix(s, e, 14, 16);
    SliceOfPrefix(s, e, 17, 19);
    assert s[16] == e[16];
    PeekU32At(s, 0, sf.flags);
    PeekU32At(s, 4, sf.volume);
    PeekU32At(s, 8, sf.pitch);
    PeekU16At(s, 12, sf.dgramPort);
    PeekU16At(s, 14, |sf.formats|);
    PeekU16At(s, 17, sf.version);
  }

  /** The fixed fields read from a body re-encode to its first 20 bytes, but
      for the pad byte. */
  lemma EncodeReadPrefix(body: seq<byte>, sf: ServerFormats)
    requires |body| >= ServerFormatsPrefixSize && ValidServerFormats(sf)
    requires && sf.flags == PeekU32(body) && sf.volume == PeekU32(body[4..])
             && sf.pitch == PeekU32(body[8..]) && sf.dgramPort == PeekU16(body[12..])
             && |sf.formats| == PeekU16(body[14..]) && sf.lastBlockConfirmed == body[16]
             && sf.version == PeekU16(body[17..])
    ensures EncodeServerFormatsPrefix(sf) == body[..19] + [0]
  {
    EncodePeekU32(body);
    EncodePeekU32(body[4..]);
    EncodePeekU32(body[8..]);
    EncodePeekU16(body[12..]);
    EncodePeekU16(body[14..]);
    EncodePeekU16(body[17..]);
    var p := body[..19] + [0];
    var a := EncodeU32(sf.flags) + EncodeU32(sf.volume) + EncodeU32(sf.pitch);
    var b := EncodeU16(sf.dgramPort) + EncodeU16(|sf.formats|);
    var c := [sf.lastBlockConfirmed] + EncodeU16(sf.version) + [0];
    assert a == p[0..12];
    assert b == p[12..16];
    assert c == p[16..20];
    assert p == a + b + c;
  }

  /** A body that is read re-encodes to the bytes it was read from, but for
      the pad byte at offset 19, which is ignored: the fixed fields come
      from their offsets and the formats are the encoded entries that start
      at offset 20. Bytes after the last entry are ignored too. */
  lemma ParseServerFormatsEncodes(body: seq<byte>)
    requires ParseServerFormats(body).Ok?
    ensures var sf := ParseServerFormats(body).value;
            var list := EncodeFormats(sf.formats);
            && EncodeServerFormatsPrefix(sf) == body[..19] + [0]
            && ServerFormatsPrefixSize + |list| <= |body|
            && body[ServerFormatsPrefixSize..ServerFormatsPrefixSize + |list|] == list
  {
    var sf := ParseServerFormats(body).value;
    var tail := body[ServerFormatsPrefixSize..];
    var count := PeekU16(body[14..]);
    ParseFormatsEncodes(tail, count);
    var list := EncodeFormats(sf.formats);
    assert tail == list + ParseFormats(tail, count).value.1;
    assert tail[..|list|] == list;
    EncodeReadPrefix(body, sf);
  }

  /** A body of at least the fixed size is read exactly when, from offset
      20, it holds as many encoded entries as its format count announces. */
  lemma ParseServerFormatsOkIff(body: seq<byte>)
    requires |body| >= ServerFormatsPrefixSize
    ensures ParseServerFormats(body).Ok? <==>
              exists fs: seq<AudioFormat>, rest: seq<byte> ::
                |fs| == PeekU16(body[14..]) && body[ServerFormatsPrefixSize..] == EncodeFormats(fs) + rest
  {
    ParseFormatsOkIff(body[ServerFormatsPrefixSize..], PeekU16(body[14..]));
  }

  /** Reading back an encoded body gives the same formats and version. */
  lemma ParseEncodeServerFormats(sf: ServerFormats)
    requires ValidServerFormats(sf)
    ensures ParseServerFormats(EncodeServerFormats(sf)) == Ok(sf)
  {
    var s := EncodeServerFormats(sf);
    var list := EncodeFormats(sf.formats);
    assert s[..ServerFormatsPrefixSize] == EncodeServerFormatsPrefix(sf);
    assert s[ServerFormatsPrefixSize..] == list + [];
    ReadServerFormatsPrefix(sf, s);
    ParseEncodeFormats(sf.formats, []);
  }
}

=== FILE: framing.dfy ===
/**
  Framing by the header's body size. The header's `bodySize` is the size of
  the remainder of the message, so a reader that has taken the header takes
  exactly `bodySize` more bytes and whatever follows belongs to the next PDU.
  `Split` cuts a buffer of back-to-back PDUs this way and keeps an
  incomplete trailing PDU for when the rest of it arrives.

  This framing holds for every PDU but the WaveInfo and Wave pair: the body
  size of a WaveInfo PDU also counts the data of the Wave PDU after it, and
  the Wave PDU has no header of its own (MS-RDPEA section 2.2.3.3). `Split`
  is therefore stated for streams without that pair.
 */
module Framing {
  import opened Bytes
  import opened Messages

  datatype Pdu = Pdu(header: Header, body: seq<byte>)

  /** The header's body size is the length of the body it precedes. */
  predicate WellFramed(p: Pdu)
  {
    |p.body| == p.header.bodySize
  }

  function EncodePdu(p: Pdu): (r: seq<byte>)
    requires WellFramed(p)
    ensures |r| == HeaderSize + |p.body|
  {
    EncodeHeader(p.header) + p.body
  }

  function EncodeAll(ps: seq<Pdu>): seq<byte>
    requires forall i :: 0 <= i < |ps| ==> WellFramed(ps[i])
  {
    if ps == [] then [] else EncodePdu(ps[0]) + EncodeAll(ps[1..])
  }

  /** Takes one PDU off the front of `buf`: the header and then exactly
      `bodySize` bytes. None when the buffer does not yet hold all of it. */
  function ReadPdu(buf: seq<byte>): (r: Option<(Pdu, seq<byte>)>)
    ensures r.Some? ==> WellFramed(r.value.0) && |r.value.1| < |buf|
  {
    match ParseHeader(buf)
    case Err(_) => None
    case Ok(h) =>
      if |buf| < HeaderSize + h.bodySize then None
      else Some((Pdu(h, buf[HeaderSize..HeaderSize + h.bodySize]), buf[HeaderSize + h.bodySize..]))
  }

  /** A PDU is read exactly when the buffer holds its header and as many
      body bytes as the header announces; the read consumes those bytes and
      nothing more, and the bytes after them are left for the next PDU. */
  lemma ReadPduConsumes(buf: seq<byte>)
    ensures ReadPdu(buf).None? <==>
              |buf| < HeaderSize || |buf| < HeaderSize + PeekU16(buf[2..])
    ensures ReadPdu(buf).Some? ==>
              var (p, rest) := ReadPdu(buf).value;
              && p.header == Header(buf[0], PeekU16(buf[2..]))
              && |buf| == HeaderSize + p.header.bodySize + |rest|
              && p.body == buf[HeaderSize..HeaderSize + p.header.bodySize]
              && rest == buf[HeaderSize + p.header.bodySize..]
  {
  }

  /** A PDU that has been read whole is unaffected by bytes arriving after it. */
  lemma ReadPduExtend(buf: seq<byte>, more: seq<byte>)
    requires ReadPdu(buf).Some?
    ensures ReadPdu(buf + more) == Some((ReadPdu(buf).value.0, ReadPdu(buf).value.1 + more))
  {
    var s := buf + more;
    assert s[2..][..2] == buf[2..][..2];
    assert s[..4] == buf[..4];
    var n := ReadPdu(buf).value.0.header.bodySize;
    assert s[HeaderSize..HeaderSize + n] == buf[HeaderSize..HeaderSize + n];
    assert s[HeaderSize + n..] == buf[HeaderSize + n..] + more;
  }

  /** Reading an encoded PDU gives it back and leaves what followed it. */
  lemma ReadEncodedPdu(p: Pdu, rest: seq<byte>)
    requires WellFramed(p)
    ensures ReadPdu(EncodePdu(p) + rest) == Some((p, rest))
  {
    var s := EncodePdu(p) + rest;
    assert s == EncodeHeader(p.header) + (p.body + rest);
    ParseEncodeHeader(p.header, p.body + rest);
    assert s[HeaderSize..HeaderSize + |p.body|] == p.body;
    assert s[HeaderSize + |p.body|..] == rest;
  }

  /** Cuts `buf` into the complete PDUs at its front, in arrival order, and
      the incomplete remainder. */
  function Split(buf: seq<byte>): (r: (seq<Pdu>, seq<byte>))
    ensures ReadPdu(r.1).None?
    ensures |r.1| <= |buf|
    decreases |buf|
  {
    var next := ReadPdu(buf);
    if next.None? then ([], buf)
    else
      var tail := Split(next.value.1);
      ([next.value.0] + tail.0, tail.1)
  }

  /** Every PDU `Split` returns is well framed: its body is as long as its
      header says. */
  lemma {:induction false} SplitWellFramed(buf: seq<byte>)
    ensures forall i :: 0 <= i < |Split(buf).0| ==> WellFramed(Split(buf).0[i])
    decreases |buf|
  {
    if ReadPdu(buf).Some? {
      SplitWellFramed(ReadPdu(buf).value.1);
    }
  }

  /** One step of `Split`: the PDU at the front comes first. */
  lemma SplitStep(buf: seq<byte>)
    requires ReadPdu(buf).Some?
    ensures Split(buf) == ([ReadPdu(buf).value.0] + Split(ReadPdu(buf).value.1).0,
                           Split(ReadPdu(buf).value.1).1)
  {
  }

  /** `buf` is the PDUs `ps` back to back, each as its header (whatever its
      pad byte) followed by its body, and then `rem`. */
  predicate Frames(buf: seq<byte>, ps: seq<Pdu>, rem: seq<byte>)
    decreases |ps|
  {
    if ps == [] then buf == rem
    else
      var n := ps[0].header.bodySize;
      && |buf| >= HeaderSize + n
      && ps[0].header == Header(buf[0], PeekU16(buf[2..]))
      && ps[0].body == buf[HeaderSize..HeaderSize + n]
      && Frames(buf[HeaderSize + n..], ps[1..], rem)
  }

  /** The buffer is the PDUs `Split` returns followed by the remainder: no
      byte is lost, added or reordered. */
  lemma {:induction false} SplitCoversBuffer(buf: seq<byte>)
    ensures forall i :: 0 <= i < |Split(buf).0| ==> WellFramed(Split(buf).0[i])
    ensures |buf| == |EncodeAll(Split(buf).0)| + |Split(buf).1|
    ensures Frames(buf, Split(buf).0, Split(buf).1)
    decreases |buf|
  {
    SplitWellFramed(buf);
    if ReadPdu(buf).Some? {
      var p, rest := ReadPdu(buf).value.0, ReadPdu(buf).value.1;
      ReadPduConsumes(buf);
      SplitCoversBuffer(rest);
      SplitStep(buf);
      var ps := Split(rest).0;
      assert ([p] + ps)[0] == p;
      assert ([p] + ps)[1..] == ps;
    }
  }

  /** There is only one way to cut a buffer into PDUs that leaves no complete
      PDU behind, and `Split` finds it. */
  lemma {:induction false} SplitUnique(buf: seq<byte>, ps: seq<Pdu>, rem: seq<byte>)
    requires Frames(buf, ps, rem) && ReadPdu(rem).None?
    ensures Split(buf) == (ps, rem)
    decreases |ps|
  {
    if ps != [] {
      var rest := buf[HeaderSize + ps[0].header.bodySize..];
      assert ReadPdu(buf) == Some((ps[0], rest));
      SplitUnique(rest, ps[1..], rem);
      SplitStep(buf);
      assert [ps[0]] + ps[1..] == ps;
    }
  }

  /** A well-framed PDU at the front of a buffer is the first one split off. */
  lemma SplitEncodedPdu(p: Pdu, tail: seq<byte>)
    requires WellFramed(p)
    ensures Split(EncodePdu(p) + tail).0 == [p] + Split(tail).0
    ensures Split(EncodePdu(p) + tail).1 == Split(tail).1
  {
    ReadEncodedPdu(p, tail);
    SplitStep(EncodePdu(p) + tail);
  }

  lemma EncodeAllCons(ps: seq<Pdu>, rest: seq<byte>)
    requires ps != [] && forall i :: 0 <= i < |ps| ==> WellFramed(ps[i])
    ensures EncodeAll(ps) + rest == EncodePdu(ps[0]) + (EncodeAll(ps[1..]) + rest)
  {
  }

  /** PDUs encoded back to back are read back in order, each consuming
      exactly its body size, and the bytes after them are split alone. */
  lemma {:induction false} SplitEncoded(ps: seq<Pdu>, rest: seq<byte>)
    requires forall i :: 0 <= i < |ps| ==> WellFramed(ps[i])
    ensures Split(EncodeAll(ps) + rest).0 == ps + Split(rest).0
    ensures Split(EncodeAll(ps) + rest).1 == Split(rest).1
  {
    if ps == [] {
      assert EncodeAll(ps) + rest == rest;
      assert ps + Split(rest).0 == Split(rest).0;
    } else {
      var tail := EncodeAll(ps[1..]) + rest;
      EncodeAllCons(ps, rest);
      SplitEncodedPdu(ps[0], tail);
      SplitEncoded(ps[1..], rest);
      ConsAppend(ps, Split(rest).0);
    }
  }

  lemma ConsAppend<T>(xs: seq<T>, ys: seq<T>)
    requires xs != []
    ensures [xs[0]] + (xs[1..] + ys) == xs + ys
  {
    assert [xs[0]] + xs[1..] == xs;
  }

  /** Delivering a buffer in two pieces gives the same PDUs as delivering it
      whole: the remainder of the first piece is completed by the second. */
  lemma {:induction false} SplitResume(a: seq<byte>, b: seq<byte>)
    ensures Split(a + b).0 == Split(a).0 + Split(Split(a).1 + b).0
    ensures Split(a + b).1 == Split(Split(a).1 + b).1
    decreases |a|
  {
    if ReadPdu(a).Some? {
      SplitResume(ReadPdu(a).value.1, b);
      SplitResumeStep(a, b);
    } else {
      assert Split(a) == ([], a);
      assert [] + Split(a + b).0 == Split(a + b).0;
    }
  }

  /** The inductive step of `SplitResume`, given the claim for the bytes
      after the first PDU of `a`. */
  lemma SplitResumeStep(a: seq<byte>, b: seq<byte>)
    requires ReadPdu(a).Some?
    requires var rest := ReadPdu(a).value.1;
             && Split(rest + b).0 == Split(rest).0 + Split(Split(rest).1 + b).0
             && Split(rest + b).1 == Split(Split(rest).1 + b).1
    ensures Split(a + b).0 == Split(a).0 + Split(Split(a).1 + b).0
    ensures Split(a + b).1 == Split(Split(a).1 + b).1
  {
    var p, rest := ReadPdu(a).value.0, ReadPdu(a).value.1;
    ReadPduExtend(a, b);
    var x := Split(rest + b);
    assert Split(a + b) == ([p] + x.0, x.1);
    var y := Split(rest);
    assert Split(a) == ([p] + y.0, y.1);
    var tail := Split(y.1 + b).0;
    assert [p] + (y.0 + tail) == ([p] + y.0) + tail;
  }
}

=== FILE: messages.dfy ===
/**
  The vocabulary of the RDPSND (audio output) virtual channel: message-type
  codes, quality modes, the common PDU header, the choice of inbound handler
  by message type, and the PDUs the client sends back.
 */
module Messages {
  import opened Bytes

  // Message types (MS-RDPEA section 2.2.1).
  const SNDC_CLOSE: byte := 1
  const SNDC_WAVE: byte := 2          // the WaveInfo PDU
  const SNDC_WAVECONFIRM: byte := 5
  const SNDC_TRAINING: byte := 6
  const SNDC_FORMATS: byte := 7
  const SNDC_QUALITYMODE: byte := 12

  // Quality modes carried by the Quality Mode PDU (MS-RDPEA section 2.2.2.3).
  const DYNAMIC_QUALITY: u16 := 0x0000
  const MEDIUM_QUALITY: u16 := 0x0001
  const HIGH_QUALITY: u16 := 0x0002

  /** The lowest server version that expects a Quality Mode PDU. */
  const QUALITY_MODE_MIN_VERSION: u16 := 6

  const WAVE_FORMAT_PCM: u16 := 1

  /** The message types of the channel, whichever direction they travel in. */
  const MessageTypes: seq<byte> :=
    [SNDC_CLOSE, SNDC_WAVE, SNDC_WAVECONFIRM, SNDC_TRAINING, SNDC_FORMATS, SNDC_QUALITYMODE]

  /** No two message types share a code, so a code names one message type. */
  lemma MessageTypesDistinct()
    ensures forall i, j :: 0 <= i < j < |MessageTypes| ==> MessageTypes[i] != MessageTypes[j]
  {
  }

  /* ---------------------------------------------------------------------- */
  /* The common header                                                       */
  /* ---------------------------------------------------------------------- */

  /** Wire size of the common header: type, one pad byte, body size. */
  const HeaderSize := 4

  /** The header common to all RDPSND PDUs. `bodySize` counts the bytes of
      the message that follow the header. */
  datatype Header = Header(messageType: byte, bodySize: u16)

  function EncodeHeader(h: Header): (r: seq<byte>)
    ensures |r| == HeaderSize
    ensures r[0] == h.messageType && r[1] == 0
    ensures PeekU16(r[2..]) == h.bodySize
  {
    [h.messageType, 0] + EncodeU16(h.bodySize)
  }

  /** Reads the header at the front of a PDU; the pad byte is ignored. */
  function ParseHeader(s: seq<byte>): (r: Result<Header>)
    ensures r.Err? <==> |s| < HeaderSize
    ensures r.Err? ==> r.error == Truncated
    ensures r.Ok? ==> EncodeHeader(r.value) == [s[0], 0] + s[2..4]
  {
    if |s| < HeaderSize then Err(Truncated)
    else
      EncodePeekU16(s[2..]);
      Ok(Header(s[0], PeekU16(s[2..])))
  }

  /** Parsing an encoded header gives the header back, whatever follows it. */
  lemma ParseEncodeHeader(h: Header, rest: seq<byte>)
    ensures ParseHeader(EncodeHeader(h) + rest) == Ok(h)
  {
    var s := EncodeHeader(h) + rest;
    assert s[2..] == EncodeU16(h.bodySize) + rest;
    PeekU16Prefix(h.bodySize, rest);
  }

  /* ---------------------------------------------------------------------- */
  /* Dispatch by message type                                                */
  /* ---------------------------------------------------------------------- */

  /** The inbound handlers. `WaveHandler` has no message type of its own:
      the Wave PDU that follows a WaveInfo PDU is recognised by the channel's
      state, not by its header. */
  datatype Handler =
    | FormatsHandler
    | TrainingHandler
    | WaveInfoHandler
    | WaveHandler
    | CloseHandler

  /** The message type that selects a handler, if any. */
  function TypeOf(h: Handler): Option<byte>
  {
    match h
    case FormatsHandler => Some(SNDC_FORMATS)
    case TrainingHandler => Some(SNDC_TRAINING)
    case WaveInfoHandler => Some(SNDC_WAVE)
    case WaveHandler => None
    case CloseHandler => Some(SNDC_CLOSE)
  }

  /** Dispatch on the header's message type: a code selects exactly the
      handler registered for it, and a code registered for none (including
      the client-to-server Wave Confirm and Quality Mode codes) selects none. */
  function HandlerFor(messageType: byte): (r: Option<Handler>)
    ensures forall h :: r == Some(h) <==> TypeOf(h) == Some(messageType)
    ensures r != Some(WaveHandler)
  {
    if messageType == SNDC_FORMATS then Some(FormatsHandler)
    else if messageType == SNDC_TRAINING then Some(TrainingHandler)
    else if messageType == SNDC_WAVE then Some(WaveInfoHandler)
    else if messageType == SNDC_CLOSE then Some(CloseHandler)
    else None
  }

  /** Two different codes never select the same handler, and the codes the
      client only sends select no inbound handler. */
  lemma DispatchIsInjective(t1: byte, t2: byte)
    ensures HandlerFor(t1).Some? && HandlerFor(t1) == HandlerFor(t2) ==> t1 == t2
    ensures HandlerFor(SNDC_WAVECONFIRM) == None && HandlerFor(SNDC_QUALITYMODE) == None
  {
    if HandlerFor(t1).Some? && HandlerFor(t1) == HandlerFor(t2) {
      var h := HandlerFor(t1).value;
      assert TypeOf(h) == Some(t1);
      assert TypeOf(h) == Some(t2);
    }
  }

  /* ---------------------------------------------------------------------- */
  /* Quality modes                                                           */
  /* ---------------------------------------------------------------------- */

  datatype QualityMode = Dynamic | Medium | High

  function QualityCode(m: QualityMode): u16
  {
    match m
    case Dynamic => DYNAMIC_QUALITY
    case Medium => MEDIUM_QUALITY
    case High => HIGH_QUALITY
  }

  /** Decodes a quality-mode field; exactly the three defined codes decode. */
  function QualityFromCode(c: u16): (r: Option<QualityMode>)
    ensures forall m :: r == Some(m) <==> QualityCode(m) == c
    ensures r.Some? <==> c <= 2
  {
    if c == DYNAMIC_QUALITY then Some(Dynamic)
    else if c == MEDIUM_QUALITY then Some(Medium)
    else if c == HIGH_QUALITY then Some(High)
    else None
  }

  /* ---------------------------------------------------------------------- */
  /* PDUs sent by the client                                                 */
  /* ---------------------------------------------------------------------- */

  /** The PDUs the client sends back on the channel. */
  datatype OutPdu =
      /** The answer to a Training PDU (MS-RDPEA section 2.2.3.2). */
    | TrainingConfirm(timestamp: u16, packSize: u16)
      /** The client's quality choice (MS-RDPEA section 2.2.2.3). */
    | QualityModeSelect(mode: QualityMode)
      /** The acknowledgement of one played wave (MS-RDPEA section 2.2.3.8). */
    | WaveConfirm(timestamp: u16, blockNo: byte)

  function OutType(p: OutPdu): byte
  {
    match p
    case TrainingConfirm(_, _) => SNDC_TRAINING
    case QualityModeSelect(_) => SNDC_QUALITYMODE
    case WaveConfirm(_, _) => SNDC_WAVECONFIRM
  }

  /** Every outbound body is four bytes long. */
  function OutBody(p: OutPdu): (r: seq<byte>)
    ensures |r| == 4
  {
    match p
    case TrainingConfirm(ts, size) => EncodeU16(ts) + EncodeU16(size)
    case QualityModeSelect(m) => EncodeU16(QualityCode(m)) + EncodeU16(0)
    case WaveConfirm(ts, block) => EncodeU16(ts) + [block, 0]
  }

  /** The bytes written to the channel for an outbound PDU: the header,
      whose body size is the body's length, followed by the body. */
  function EncodeOut(p: OutPdu): (r: seq<byte>)
    ensures |r| == HeaderSize + 4
    ensures ParseHeader(r) == Ok(Header(OutType(p), 4))
    ensures r[HeaderSize..] == OutBody(p)
  {
    var r := EncodeHeader(Header(OutType(p), 4)) + OutBody(p);
    ParseEncodeHeader(Header(OutType(p), 4), OutBody(p));
    r
  }

  /** Reads an outbound PDU back from its bytes, as the server would. */
  function DecodeOut(s: seq<byte>): (r: Option<OutPdu>)
  {
    match ParseHeader(s)
    case Err(_) => None
    case Ok(h) =>
      var body := s[HeaderSize..];
      if h.bodySize != 4 || |body| != 4 then None
      else if h.messageType == SNDC_TRAINING then
        Some(TrainingConfirm(PeekU16(body), PeekU16(body[2..])))
      else if h.messageType == SNDC_QUALITYMODE then
        match QualityFromCode(PeekU16(body))
        case None => None
        case Some(m) => Some(QualityModeSelect(m))
      else if h.messageType == SNDC_WAVECONFIRM then
        Some(WaveConfirm(PeekU16(body), body[2]))
      else None
  }

  /** The server reads back exactly the PDU the client encoded. */
  lemma DecodeEncodeOut(p: OutPdu)
    ensures DecodeOut(EncodeOut(p)) == Some(p)
  {
    var body := EncodeOut(p)[HeaderSize..];
    assert body == OutBody(p);
    match p
    case TrainingConfirm(ts, size) =>
      PeekU16Prefix(ts, EncodeU16(size));
      assert body[2..] == EncodeU16(size);
    case QualityModeSelect(m) =>
      PeekU16Prefix(QualityCode(m), EncodeU16(0));
    case WaveConfirm(ts, block) =>
      PeekU16Prefix(ts, [block, 0]);
  }
}

=== FILE: rdpsnd.dfy ===
/**
  The inbound side of the RDPSND channel as a state machine over PDUs.

  Each channel message is one PDU. In the `Idle` state a message starts with
  the common header and its message type selects the handler. A WaveInfo
  PDU carries the first four bytes of a wave and moves the channel to
  `Pending`; the very next message is then the Wave PDU whatever its first
  bytes say. Those first four bytes are padding standing where the WaveInfo
  bytes belong, so the wave played is the WaveInfo bytes followed by the
  Wave PDU from its fifth byte on. Delivering audio and writing outbound
  PDUs are not performed here: they are the events a step emits.
 */
module Rdpsnd {
  import opened Bytes
  import opened Messages
  import opened Formats

  /** Exactly four bytes: the audio carried by a WaveInfo PDU, and the
      padding at the front of a Wave PDU. */
  type Quad = s: seq<byte> | |s| == 4 witness [0, 0, 0, 0]

  /** What a WaveInfo PDU announces (MS-RDPEA section 2.2.3.3). */
  datatype WaveInfo = WaveInfo(timestamp: u16, formatNo: u16, blockNo: byte, data: Quad)

  /** At most one WaveInfo is outstanding, and only between its own PDU and
      the next one. */
  datatype State = Idle | Pending(info: WaveInfo)

  /** A reassembled wave, ready for playback in the announced format. */
  datatype AudioChunk = AudioChunk(formatNo: u16, timestamp: u16, samples: seq<byte>)

  datatype Event =
    | Send(pdu: OutPdu)                  // written back on the channel
    | Play(chunk: AudioChunk)            // handed to the audio stream
    | Advertised(formats: ServerFormats) // the server's formats and version
    | Fault(error: ErrorKind)            // the PDU was dropped

  datatype Output = Output(state: State, events: seq<Event>)

  /** Size of a WaveInfo body: timestamp, format, block, pad, four data bytes. */
  const WaveInfoBodySize := 12

  /** Size of the padding that opens a Wave PDU. */
  const WavePaddingSize := 4

  /* ---------------------------------------------------------------------- */
  /* WaveInfo                                                                */
  /* ---------------------------------------------------------------------- */

  function ParseWaveInfo(body: seq<byte>): (r: Result<WaveInfo>)
    ensures r.Err? <==> |body| < WaveInfoBodySize
    ensures r.Ok? ==> r.value.data == body[8..12]
  {
    if |body| < WaveInfoBodySize then Err(Truncated)
    else Ok(WaveInfo(PeekU16(body), PeekU16(body[2..]), body[4], body[8..12]))
  }

  function EncodeWaveInfo(i: WaveInfo): (r: seq<byte>)
    ensures |r| == WaveInfoBodySize
  {
    EncodeU16(i.timestamp) + EncodeU16(i.formatNo) + [i.blockNo, 0, 0, 0] + i.data
  }

  /** Every WaveInfo is read back from its encoding, whatever follows it. */
  lemma ParseEncodeWaveInfo(i: WaveInfo, rest: seq<byte>)
    ensures ParseWaveInfo(EncodeWaveInfo(i) + rest) == Ok(i)
  {
    var s := EncodeWaveInfo(i) + rest;
    assert s[0..2] == EncodeU16(i.timestamp);
    assert s[2..4] == EncodeU16(i.formatNo);
    PeekU16At(s, 0, i.timestamp);
    PeekU16At(s, 2, i.formatNo);
    assert s[8..12] == i.data;
  }

  /* ---------------------------------------------------------------------- */
  /* The handlers                                                            */
  /* ---------------------------------------------------------------------- */

  /** SNDC_FORMATS: report the server's formats, and select a quality mode
      when the server's version calls for one. */
  function OnFormats(quality: QualityMode, body: seq<byte>): (r: Output)
    ensures r.state == Idle
    ensures ParseServerFormats(body).Err? ==> r.events == [Fault(ParseServerFormats(body).error)]
    ensures ParseServerFormats(body).Ok? ==>
              && |r.events| >= 1
              && r.events[0] == Advertised(ParseServerFormats(body).value)
              && ((r.events[1..] == [Send(QualityModeSelect(quality))]) <==>
                  (ParseServerFormats(body).value.version >= QUALITY_MODE_MIN_VERSION))
              && ((r.events[1..] == []) <==>
                  (ParseServerFormats(body).value.version < QUALITY_MODE_MIN_VERSION))
  {
    match ParseServerFormats(body)
    case Err(e) => Output(Idle, [Fault(e)])
    case Ok(sf) =>
      var select := if sf.version >= QUALITY_MODE_MIN_VERSION
                    then [Send(QualityModeSelect(quality))] else [];
      Output(Idle, [Advertised(sf)] + select)
  }

  /** SNDC_TRAINING: answer with a Training PDU echoing the probe's
      timestamp and pack size; nothing is remembered. */
  function OnTraining(body: seq<byte>): (r: Output)
    ensures r.state == Idle
    ensures |body| < 4 ==> r.events == [Fault(Truncated)]
    ensures |body| >= 4 ==>
              && |r.events| == 1 && r.events[0].Send?
              && OutType(r.events[0].pdu) == SNDC_TRAINING
              && OutBody(r.events[0].pdu) == body[..4]
  {
    if |body| < 4 then Output(Idle, [Fault(Truncated)])
    else
      var p := TrainingConfirm(PeekU16(body), PeekU16(body[2..]));
      EncodePeekU16(body);
      EncodePeekU16(body[2..]);
      assert body[..4] == body[..2] + body[2..][..2];
      Output(Idle, [Send(p)])
  }

  /** SNDC_WAVE (WaveInfo): remember what it announces until the Wave PDU. */
  function OnWaveInfo(body: seq<byte>): (r: Output)
    ensures r.state.Pending? <==> |body| >= WaveInfoBodySize
    ensures r.state.Pending? ==> r.events == [] && r.state.info.data == body[8..12]
    ensures r.state.Idle? ==> r.events == [Fault(Truncated)]
  {
    match ParseWaveInfo(body)
    case Err(e) => Output(Idle, [Fault(e)])
    case Ok(info) => Output(Pending(info), [])
  }

  /** The Wave PDU that follows a WaveInfo: play the four WaveInfo bytes
      followed by the wave data after the padding, and confirm the wave. */
  function OnWave(info: WaveInfo, pdu: seq<byte>): (r: Output)
    ensures r.state == Idle
    ensures |pdu| < WavePaddingSize ==> r.events == [Fault(Truncated)]
    ensures |pdu| >= WavePaddingSize ==>
              && |r.events| == 2
              && r.events[0].Play?
              && |r.events[0].chunk.samples| == |pdu|
              && r.events[0].chunk.samples[..4] == info.data
              && r.events[0].chunk.samples[4..] == pdu[4..]
              && r.events[1] == Send(WaveConfirm(info.timestamp, info.blockNo))
  {
    if |pdu| < WavePaddingSize then Output(Idle, [Fault(Truncated)])
    else
      var chunk := AudioChunk(info.formatNo, info.timestamp, info.data + pdu[WavePaddingSize..]);
      Output(Idle, [Play(chunk), Send(WaveConfirm(info.timestamp, info.blockNo))])
  }

  /** SNDC_CLOSE: ignored. */
  function OnClose(): (r: Output)
    ensures r.state == Idle && r.events == []
  {
    Output(Idle, [])
  }

  /* ---------------------------------------------------------------------- */
  /* One PDU, and a sequence of PDUs                                         */
  /* ---------------------------------------------------------------------- */

  /** The handler a message goes to: the Wave handler when a WaveInfo is
      pending, otherwise the handler its header's message type selects. */
  function Route(s: State, msg: seq<byte>): (r: Option<Handler>)
    ensures s.Pending? ==> r == Some(WaveHandler)
    ensures s.Idle? ==> r == (if |msg| < HeaderSize then None else HandlerFor(msg[0]))
  {
    if s.Pending? then Some(WaveHandler)
    else
      match ParseHeader(msg)
      case Err(_) => None
      case Ok(h) => HandlerFor(h.messageType)
  }

  /** Processes one channel message. `quality` is the mode the client asks
      for when the server's version calls for a Quality Mode PDU. */
  function Step(quality: QualityMode, s: State, msg: seq<byte>): (r: Output)
    ensures s.Pending? ==> r.state == Idle
    ensures r.state.Pending? ==> Route(s, msg) == Some(WaveInfoHandler)
    ensures forall i :: 0 <= i < |r.events| && r.events[i].Play? ==>
              Route(s, msg) == Some(WaveHandler)
    ensures forall i :: 0 <= i < |r.events| && r.events[i].Send? && r.events[i].pdu.WaveConfirm? ==>
              Route(s, msg) == Some(WaveHandler)
  {
    match Route(s, msg)
    case Some(WaveHandler) => OnWave(s.info, msg)
    case Some(FormatsHandler) => OnFormats(quality, msg[HeaderSize..])
    case Some(TrainingHandler) => OnTraining(msg[HeaderSize..])
    case Some(WaveInfoHandler) => OnWaveInfo(msg[HeaderSize..])
    case Some(CloseHandler) => OnClose()
    case None => Output(Idle, [Fault(if |msg| < HeaderSize then Truncated else UnknownType)])
  }

  /** Processes channel messages in arrival order with `step`, collecting
      their events. */
  function Fold(step: (State, seq<byte>) -> Output, s: State, msgs: seq<seq<byte>>): (r: Output)
    decreases |msgs|
  {
    if msgs == [] then Output(s, [])
    else
      var first := step(s, msgs[0]);
      var later := Fold(step, first.state, msgs[1..]);
      Output(later.state, first.events + later.events)
  }

  /** Processes channel messages in arrival order, collecting their events. */
  function Run(quality: QualityMode, s: State, msgs: seq<seq<byte>>): Output
  {
    Fold((st, m) => Step(quality, st, m), s, msgs)
  }
}

=== FILE: rdpsnd_properties.dfy ===
/**
  What the channel promises over whole messages and message sequences:
  WaveInfo/Wave reassembly, training echo, the quality-mode rule, Close being
  ignored, and the bookkeeping that holds over any run.
 */
module RdpsndProperties {
  import opened Bytes
  import opened Messages
  import opened Formats
  import opened Rdpsnd

  /* ---------------------------------------------------------------------- */
  /* Counting events                                                         */
  /* ---------------------------------------------------------------------- */

  predicate IsPlay(e: Event) { e.Play? }

  predicate IsWaveConfirm(e: Event) { e.Send? && e.pdu.WaveConfirm? }

  predicate IsQualitySelect(e: Event) { e.Send? && e.pdu.QualityModeSelect? }

  function Count(es: seq<Event>, p: Event -> bool): nat
  {
    if es == [] then 0 else (if p(es[0]) then 1 else 0) + Count(es[1..], p)
  }

  lemma {:induction false} CountAppend(a: seq<Event>, b: seq<Event>, p: Event -> bool)
    ensures Count(a + b, p) == Count(a, p) + Count(b, p)
  {
    if a != [] {
      assert (a + b)[1..] == a[1..] + b;
      CountAppend(a[1..], b, p);
    } else {
      assert a + b == b;
    }
  }

  lemma CountTwo(e1: Event, e2: Event, p: Event -> bool)
    ensures Count([e1, e2], p) == (if p(e1) then 1 else 0) + (if p(e2) then 1 else 0)
  {
    assert [e1, e2][1..] == [e2];
    assert [e2][1..] == [];
    assert Count([e2], p) == (if p(e2) then 1 else 0) + Count([], p);
  }

  lemma {:induction false} NoneCounted(es: seq<Event>, p: Event -> bool)
    requires forall i :: 0 <= i < |es| ==> !p(es[i])
    ensures Count(es, p) == 0
  {
    if es != [] {
      NoneCounted(es[1..], p);
    }
  }

  /* ---------------------------------------------------------------------- */
  /* Single messages                                                         */
  /* ---------------------------------------------------------------------- */

  /** A message whose header carries the given type. */
  function Message(messageType: byte, bodySize: u16, body: seq<byte>): (r: seq<byte>)
    ensures |r| == HeaderSize + |body| && r[HeaderSize..] == body
  {
    EncodeHeader(Header(messageType, bodySize)) + body
  }

  /** In the idle state a message too short for a header is dropped as
      truncated. Any other message goes to the handler its type byte selects,
      which gets the bytes after the header as its body, whatever the pad byte
      and the body-size field hold. */
  lemma IdleStepBody(q: QualityMode, msg: seq<byte>)
    ensures |msg| < HeaderSize ==> Step(q, Idle, msg) == Output(Idle, [Fault(Truncated)])
    ensures |msg| >= HeaderSize ==> Route(Idle, msg) == HandlerFor(msg[0])
    ensures |msg| >= HeaderSize && msg[0] == SNDC_FORMATS ==>
              Step(q, Idle, msg) == OnFormats(q, msg[HeaderSize..])
    ensures |msg| >= HeaderSize && msg[0] == SNDC_TRAINING ==>
              Step(q, Idle, msg) == OnTraining(msg[HeaderSize..])
    ensures |msg| >= HeaderSize && msg[0] == SNDC_WAVE ==>
              Step(q, Idle, msg) == OnWaveInfo(msg[HeaderSize..])
  {
  }

  /** Every Training PDU is answered by exactly one Training PDU that echoes
      the probe's timestamp and pack size, and the state stays idle. A probe
      too short to hold both fields is dropped as truncated. */
  lemma TrainingAnswered(q: QualityMode, msg: seq<byte>)
    requires |msg| >= HeaderSize && msg[0] == SNDC_TRAINING
    ensures Step(q, Idle, msg).state == Idle
    ensures |msg| < HeaderSize + 4 ==> Step(q, Idle, msg).events == [Fault(Truncated)]
    ensures |msg| >= HeaderSize + 4 ==>
              var es := Step(q, Idle, msg).events;
              && es == [Send(TrainingConfirm(PeekU16(msg[4..]), PeekU16(msg[6..])))]
              && EncodeOut(es[0].pdu) == Message(SNDC_TRAINING, 4, msg[4..8])
  {
    IdleStepBody(q, msg);
    if |msg| >= HeaderSize + 4 {
      assert msg[HeaderSize..][2..] == msg[6..];
      assert msg[HeaderSize..][..4] == msg[4..8];
    }
  }

  /** What the Formats handler sends for a body that reads as `sf`. */
  lemma OnFormatsSelects(q: QualityMode, body: seq<byte>, sf: ServerFormats)
    requires ParseServerFormats(body) == Ok(sf)
    ensures var es := OnFormats(q, body).events;
            && Count(es, IsQualitySelect) == (if sf.version >= QUALITY_MODE_MIN_VERSION then 1 else 0)
            && (forall i :: 0 <= i < |es| && IsQualitySelect(es[i]) ==> es[i].pdu.mode == q)
  {
    var es := OnFormats(q, body).events;
    if sf.version >= QUALITY_MODE_MIN_VERSION {
      assert es == [Advertised(sf), Send(QualityModeSelect(q))];
      CountTwo(Advertised(sf), Send(QualityModeSelect(q)), IsQualitySelect);
    } else {
      assert es == [Advertised(sf)];
      NoneCounted(es, IsQualitySelect);
    }
  }

  /** For any formats PDU whose body reads as `sf`, whatever its pad bytes and
      trailing bytes: the Quality Mode PDU is sent exactly when the server's
      version is at least 6, once, carrying the configured mode, which the
      server reads back from its bytes. */
  lemma QualityModeIffVersion(q: QualityMode, msg: seq<byte>, sf: ServerFormats)
    requires |msg| >= HeaderSize && msg[0] == SNDC_FORMATS
    requires ParseServerFormats(msg[HeaderSize..]) == Ok(sf)
    ensures var r := Step(q, Idle, msg);
            && r.state == Idle
            && Count(r.events, IsQualitySelect) == (if sf.version >= QUALITY_MODE_MIN_VERSION then 1 else 0)
            && (forall i :: 0 <= i < |r.events| && IsQualitySelect(r.events[i]) ==>
                  && r.events[i].pdu == QualityModeSelect(q)
                  && DecodeOut(EncodeOut(r.events[i].pdu)) == Some(QualityModeSelect(q)))
  {
    IdleStepBody(q, msg);
    OnFormatsSelects(q, msg[HeaderSize..], sf);
    DecodeEncodeOut(QualityModeSelect(q));
  }

  /** A Close PDU is ignored: no event, and the state stays idle. */
  lemma CloseIgnored(q: QualityMode, msg: seq<byte>)
    requires |msg| >= HeaderSize && msg[0] == SNDC_CLOSE
    ensures Step(q, Idle, msg) == Output(Idle, [])
  {
  }

  /** A message type no handler is registered for is reported and dropped. */
  lemma UnknownTypeDropped(q: QualityMode, msg: seq<byte>)
    requires |msg| >= HeaderSize && HandlerFor(msg[0]) == None
    ensures Step(q, Idle, msg) == Output(Idle, [Fault(UnknownType)])
  {
  }

  /* ---------------------------------------------------------------------- */
  /* Wave reassembly                                                         */
  /* ---------------------------------------------------------------------- */

  /** A WaveInfo message followed by any message of at least four bytes:
      the second message is the Wave PDU. The chunk played has the announced
      format and timestamp, and its samples are the WaveInfo's four audio
      bytes followed by the Wave PDU after its padding, so it is as long as
      the Wave PDU. The WaveInfo is confirmed once and the channel is idle
      again. The header's pad byte, the WaveInfo's pad bytes, its body size
      and the Wave PDU's padding may hold anything. */
  lemma WaveReassembly(q: QualityMode, m1: seq<byte>, m2: seq<byte>)
    requires |m1| >= HeaderSize + WaveInfoBodySize && m1[0] == SNDC_WAVE
    requires |m2| >= WavePaddingSize
    ensures var r := Run(q, Idle, [m1, m2]);
            && r.state == Idle
            && r.events == [Play(AudioChunk(PeekU16(m1[6..]), PeekU16(m1[4..]), m1[12..16] + m2[4..])),
                            Send(WaveConfirm(PeekU16(m1[4..]), m1[8]))]
            && |r.events[0].chunk.samples| == |m2|
  {
    var body := m1[HeaderSize..];
    assert body[2..] == m1[6..] && body[4] == m1[8] && body[8..12] == m1[12..16];
    var info := WaveInfo(PeekU16(m1[4..]), PeekU16(m1[6..]), m1[8], m1[12..16]);
    assert ParseWaveInfo(body) == Ok(info);
    var first := Step(q, Idle, m1);
    assert first == Output(Pending(info), []);
    var second := Step(q, Pending(info), m2);
    assert second == OnWave(info, m2);
    var msgs: seq<seq<byte>> := [m1, m2];
    assert msgs[1..] == [m2] && msgs[1..][1..] == [];
    assert Run(q, Idle, msgs[1..][1..]) == Output(Idle, []);
    assert Run(q, Pending(info), msgs[1..]) == Output(Idle, second.events + []);
    assert second.events + [] == second.events;
    assert [] + second.events == second.events;
  }

  /** A WaveInfo always leaves the channel waiting for its Wave PDU, and
      whatever message comes next ends the wait. */
  lemma PendingLastsOneMessage(q: QualityMode, info: WaveInfo, msg: seq<byte>)
    ensures Step(q, Pending(info), msg).state == Idle
    ensures Count(Step(q, Pending(info), msg).events, IsPlay)
         == (if |msg| >= WavePaddingSize then 1 else 0)
  {
    var es := Step(q, Pending(info), msg).events;
    if |msg| >= WavePaddingSize {
      CountTwo(es[0], es[1], IsPlay);
      assert es == [es[0], es[1]];
    } else {
      NoneCounted(es, IsPlay);
    }
  }

  /* ---------------------------------------------------------------------- */
  /* Runs                                                                    */
  /* ---------------------------------------------------------------------- */

  /** Processing `a` then `b` is processing `a + b`: messages are handled in
      arrival order and each sees the state the previous ones left. */
  lemma RunAppend(q: QualityMode, s: State, a: seq<seq<byte>>, b: seq<seq<byte>>)
    ensures var ra := Run(q, s, a);
            var rb := Run(q, ra.state, b);
            Run(q, s, a + b) == Output(rb.state, ra.events + rb.events)
  {
    FoldAppend((st, m) => Step(q, st, m), s, a, b);
  }

  lemma {:induction false} FoldAppend(step: (State, seq<byte>) -> Output, s: State,
                                      a: seq<seq<byte>>, b: seq<seq<byte>>)
    ensures var ra := Fold(step, s, a);
            var rb := Fold(step, ra.state, b);
            Fold(step, s, a + b) == Output(rb.state, ra.events + rb.events)
    decreases |a|
  {
    if a == [] {
      assert a + b == b;
    } else {
      var first := step(s, a[0]);
      FoldAppend(step, first.state, a[1..], b);
      var ra' := Fold(step, first.state, a[1..]);
      var rb := Fold(step, ra'.state, b);
      assert (a + b)[0] == a[0];
      assert (a + b)[1..] == a[1..] + b;
      assert first.events + (ra'.events + rb.events) == (first.events + ra'.events) + rb.events;
    }
  }

  /** Each step plays exactly as many waves as it confirms. */
  lemma StepConfirmsEveryPlay(q: QualityMode, s: State, msg: seq<byte>)
    ensures var es := Step(q, s, msg).events;
            Count(es, IsPlay) == Count(es, IsWaveConfirm)
  {
    var es := Step(q, s, msg).events;
    if s.Pending? && |msg| >= WavePaddingSize {
      CountTwo(es[0], es[1], IsPlay);
      CountTwo(es[0], es[1], IsWaveConfirm);
      assert es == [es[0], es[1]];
    } else {
      NoneCounted(es, IsPlay);
      NoneCounted(es, IsWaveConfirm);
    }
  }

  /** Over any run, every wave played is confirmed exactly once, and no
      confirmation is sent for a wave that was not played. */
  lemma {:induction false} ConfirmsMatchPlays(q: QualityMode, s: State, msgs: seq<seq<byte>>)
    ensures var es := Run(q, s, msgs).events;
            Count(es, IsPlay) == Count(es, IsWaveConfirm)
    decreases |msgs|
  {
    if msgs != [] {
      var first := Step(q, s, msgs[0]);
      var later := Run(q, first.state, msgs[1..]);
      StepConfirmsEveryPlay(q, s, msgs[0]);
      ConfirmsMatchPlays(q, first.state, msgs[1..]);
      CountAppend(first.events, later.events, IsPlay);
      CountAppend(first.events, later.events, IsWaveConfirm);
    }
  }

  /** Without a WaveInfo PDU the channel never leaves the idle state and
      never plays audio. */
  lemma {:induction false} NoWaveInfoNoAudio(q: QualityMode, msgs: seq<seq<byte>>)
    requires forall i :: 0 <= i < |msgs| ==> Route(Idle, msgs[i]) != Some(WaveInfoHandler)
    ensures Run(q, Idle, msgs).state == Idle
    ensures Count(Run(q, Idle, msgs).events, IsPlay) == 0
    decreases |msgs|
  {
    if msgs != [] {
      var first := Step(q, Idle, msgs[0]);
      var later := Run(q, first.state, msgs[1..]);
      assert first.state == Idle;
      NoPlayWhenIdle(q, msgs[0]);
      NoWaveInfoNoAudio(q, msgs[1..]);
      CountAppend(first.events, later.events, IsPlay);
    }
  }

  /** An idle step plays nothing. */
  lemma {:induction false} NoPlayWhenIdle(q: QualityMode, msg: seq<byte>)
    ensures Count(Step(q, Idle, msg).events, IsPlay) == 0
  {
    var es := Step(q, Idle, msg).events;
    NoneCounted(es, IsPlay);
  }
}
